=== FILE: README.md ===
# Portfolio navigation, skill-card and loading-screen model

A Dafny model of the three pieces of sequential logic in a single-page
portfolio site whose body is a hero section followed by five panels (About,
Skills, Projects, Timeline, Connect). The panels are swept horizontally while
the page is pinned for 400% of the viewport height.

- **Navbar** (`navbar.dfy`): `handleScroll` picks which of the six nav entries
  to highlight for a vertical scroll offset `s`, given the hero height `H`
  and the viewport height `V`. Below `H - 50` it picks `home`. Above
  `H + 4V - 50` it picks `connect`. In between it picks the panel at index
  `floor(4 (s - H) / 4V + 0.5)`, clamped to `0..4`. `scrollToSection` gives
  the offset a click animates to: `0` for `home`, `H + i * (4V / 4)` for
  panel `i`, and nothing for an unknown id or a missing hero element.
  `handleScroll` also refreshes the `isScrolled` flag (`s > 50`).
- **SkillCard** (`skill_card.dfy`): the icon slug
  `tag.toLowerCase().replace('.', 'dot').replace(' ', '')`. A string pattern
  makes `replace` act on the first occurrence only. The card's tilt state
  has a mobile guard set at mount, a pointer-to-fraction mapping on mouse
  move, a reset on mouse leave, and the rotation the card settles at.
- **LoadingScreen** (`loading_screen.dfy`): the 0–100 counter that a 20 ms
  interval advances. When the counter finds 100 it clears the interval and
  schedules the overlay's removal. The two timers are events of a pure step
  function.
- `seqs.dfy` holds the first-occurrence search (`indexOf`, and the scan that
  `replace` does) and occurrence counting. `wrappers.dfy` holds `Option`.

Geometry is in whole pixels (`int`). The tilt fractions are `real`. Strings
are `seq<char>`.

## Model

| member | source | states |
|---|---|---|
| Seqs.IndexOf | src/components/ui/Navbar.tsx:70 | `indexOf` gives -1 exactly when the id is absent, and otherwise a position holding the id with no earlier occurrence |
| Navbar.RawIndex | src/components/ui/Navbar.tsx:42-45 | the unclamped index `floor(progress * 4 + 0.5)` is the panel whose target `H + i*V` is nearest to the offset; an offset exactly halfway between two targets goes to the later one |
| Navbar.RawIndexMonotone | src/components/ui/Navbar.tsx:42-45 | the unclamped index never decreases as the scroll offset grows |
| Navbar.PanelIndex | src/components/ui/Navbar.tsx:42-45 | the clamped index is always one of the five panels and is the nearest target with ties going up; an empty viewport gives index 0, as the JavaScript minus infinity does after clamping |
| Navbar.ActiveSection | src/components/ui/Navbar.tsx:32-47 | the highlighted id is always one of the six nav ids; it is `home` exactly when `s < H - 50`; it is `connect` whenever `s > H + 4V - 50`; in the middle band it is the panel at the clamped nearest-target index of `PanelIndex` |
| Navbar.HandleScroll | src/components/ui/Navbar.tsx:26-48 | `isScrolled` is `s > 50` in every case; a missing hero element leaves the highlighted section unchanged; otherwise the section is a nav id, is `home` exactly below `H - 50`, is `connect` above `H + 4V - 50`, and is in every case the id `ActiveSection` picks for the hero's height |
| Navbar.FirstScrollAtTop | src/components/ui/Navbar.tsx:22-52 | the handler's first run at the top of the page, with a hero taller than 50, leaves the initial state (`home`, not scrolled) as it is |
| Navbar.ScrollTarget | src/components/ui/Navbar.tsx:59-82 | `home` always goes to offset 0, even without the hero element; a missing hero element or an id that names no panel gives no scroll; panel `i` goes to `H + i*V` |
| Navbar.PanelTarget | src/components/ui/Navbar.tsx:68-74 | clicking panel `i` with the hero present scrolls to `H + i*V`: the pin length `4V` split into four equal transitions |
| Navbar.TargetSpacing | src/components/ui/Navbar.tsx:73-74 | the first panel's target is the end of the hero, and consecutive panel targets are exactly one viewport height apart (five panels, four transitions of 100vh) |
| Navbar.PanelIndexAtTarget | src/components/ui/Navbar.tsx:45 | at the target of panel `i` the index is `i` (for example `s = H + V` gives `skills`) |
| Navbar.ActiveSectionAtTarget | src/components/ui/Navbar.tsx:37-46 | when `H > 50` and `V >= 50`, the offset `H + i*V` highlights panel `i`, the last panel through the connect band |
| Navbar.PanelRoundTrip | src/components/ui/Navbar.tsx:37-74 | when `H > 50` and `V >= 50`, clicking panel `i` and classifying the offset it scrolls to highlights panel `i` |
| Navbar.RoundTrip | src/components/ui/Navbar.tsx:26-82 | when `H > 50` and `V >= 50`, clicking any nav entry and classifying the offset it scrolls to highlights that same entry, `home` and `connect` included |
| Navbar.RoundTripNeedsTallHero | src/components/ui/Navbar.tsx:37-61 | with `H <= 50` the top of the page is not in the home band, so clicking `home` does not highlight `home` |
| Navbar.RoundTripNeedsTallViewport | src/components/ui/Navbar.tsx:34-40 | with `V < 50` the timeline target `H + 3V` already lies in the connect band, so clicking `timeline` highlights `connect` |
| Navbar.ActiveSectionMonotone | src/components/ui/Navbar.tsx:37-46 | for `s1 <= s2` the entry highlighted at `s1` comes no later in home < about < skills < projects < timeline < connect than the one at `s2` |
| Navbar.HalfwayGoesToLaterPanel | src/components/ui/Navbar.tsx:45 | the round-half-up tie rule: an offset exactly halfway between the targets of panels `i-1` and `i` highlights panel `i` (so `s = H + V/2` gives `skills`, not `about`) |
| Navbar.Highlights | src/components/ui/Navbar.tsx:97-106 | for an active id of the bar, exactly one button is drawn active, the one whose id it is |
| SkillCard.ToLower | src/components/ui/SkillCard.tsx:95 | lowercasing keeps the length of the tag |
| SkillCard.ToLowerPointwise | src/components/ui/SkillCard.tsx:95 | lowercasing leaves no upper-case ASCII letter, maps each capital to the letter 32 code points above it and leaves every other character in place |
| SkillCard.ReplaceFirst | src/components/ui/SkillCard.tsx:95 | `replace` with a one-character pattern changes nothing when the character is absent, and otherwise trades exactly one character for the replacement |
| SkillCard.ReplaceFirstSplices | src/components/ui/SkillCard.tsx:95 | when the character occurs, the replacement goes in at its first occurrence only; everything before and after is kept |
| SkillCard.CountReplaceFirst | src/components/ui/SkillCard.tsx:95 | replacing the first occurrence removes exactly one occurrence of the pattern and adds those of the replacement; other characters keep their counts |
| SkillCard.IconSlug | src/components/ui/SkillCard.tsx:95 | no slug contains an upper-case ASCII letter; the slug length is the tag length, plus 2 if the tag contains a dot, minus 1 if it contains a space |
| SkillCard.SlugKeepsLaterDotsAndSpaces | src/components/ui/SkillCard.tsx:95 | the slug holds one dot fewer than the tag when the tag has any, and one space fewer when it has any: later dots and spaces survive |
| SkillCard.SlugOfPlainTag | src/components/ui/SkillCard.tsx:95 | a tag with neither a dot nor a space maps to its lower-case form |
| SkillCard.SlugOfDottedTag | src/components/ui/SkillCard.tsx:95 | a tag with no space becomes its lower-case form with the first dot spelled `dot` |
| SkillCard.SlugOfSpacedTag | src/components/ui/SkillCard.tsx:95 | a tag with no dot becomes its lower-case form without its first space |
| SkillCard.SlugOfKaliLinux | src/app/page.tsx:208 | the page's tag `KaliLinux` gives `kalilinux` |
| SkillCard.SlugOfNextJs | src/app/page.tsx:214 | the page's tag `Next.js` gives `nextdotjs` |
| SkillCard.SlugOfTwoDots | src/components/ui/SkillCard.tsx:95 | `a.b.c` gives `adotb.c`: the second dot is kept |
| SkillCard.MountFromInitial | src/components/ui/SkillCard.tsx:16-28 | a card starts not mobile and at rest, so after the mount effect it is mobile exactly when the window is narrower than 768, and it is flat |
| SkillCard.Mount | src/components/ui/SkillCard.tsx:26-28 | mounting leaves the pointer state alone and marks the card mobile exactly when it already was or the window is narrower than 768 |
| SkillCard.MouseMove | src/components/ui/SkillCard.tsx:30-43 | on a mobile card nothing changes; otherwise the new `(x, y)` plus one half, times the card's size, is the pointer's offset in the card, and a pointer inside the card gives `(x, y)` in `[-0.5, 0.5]^2` |
| SkillCard.MouseLeave | src/components/ui/SkillCard.tsx:45-48 | leaving resets `(x, y)` to `(0, 0)` whatever the prior state, and keeps the mobile flag |
| SkillCard.Rotation | src/components/ui/SkillCard.tsx:23-56 | a mobile card stays flat; every rotation lies in `[-17.5, 17.5]` degrees; in range, `rotateX` is `-35 y` and `rotateY` is `35 x`; a card at rest is flat |
| SkillCard.LeaveRestsCard | src/components/ui/SkillCard.tsx:30-48 | a mouse move followed by a leave ends flat and at rest, the same as leaving directly |
| LoadingScreen.Updater | src/components/ui/LoadingScreen.tsx:12-19 | the counter stops exactly when the previous value is at least 100; the next value never exceeds 100 and never falls below a previous value of at most 100; below 100 it advances by one |
| LoadingScreen.Step | src/components/ui/LoadingScreen.tsx:11-20 | a live tick applies the updater: the counter takes its next value, and when the updater stops it the interval is cleared and the removal is scheduled; the scheduled removal timeout ends loading and changes nothing else; a tick after the interval was cleared or a timeout never scheduled leaves the state exactly as it was; the overlay is never brought back; only a live tick moves the counter, and only the scheduled timeout ends loading |
| LoadingScreen.Overlay | src/components/ui/LoadingScreen.tsx:27 | the overlay is rendered exactly while loading, showing the current percentage |
| LoadingScreen.InitialValid | src/components/ui/LoadingScreen.tsx:7-8 | the first render is loading at 0% and satisfies the state invariant |
| LoadingScreen.StepPreservesValid | src/components/ui/LoadingScreen.tsx:12-19 | every event keeps the counter in 0..100, keeps the removal after the stop at 100, and never lowers the counter |
| LoadingScreen.Run | src/components/ui/LoadingScreen.tsx:11-20 | no sequence of timer events brings the overlay back once it is gone |
| LoadingScreen.RunPreservesValid | src/components/ui/LoadingScreen.tsx:11-20 | under any sequence of timer events the counter stays within 100 and never decreases, and the overlay is gone only once the counter shows 100 |
| LoadingScreen.TicksFromInitial | src/components/ui/LoadingScreen.tsx:11-20 | after `k` ticks from the first render the counter is `min(k, 100)`; the interval is live for the first 100 ticks and the 101st stops it and schedules the removal |
| LoadingScreen.OverlayGoesAway | src/components/ui/LoadingScreen.tsx:11-27 | after the 101 ticks from the first render the overlay still shows 100%; once the removal timeout fires it is hidden, with the counter left at 100 |
| LoadingScreen.FullIsFixed | src/components/ui/LoadingScreen.tsx:13-16 | once the counter is 100 no event moves it |
| LoadingScreen.TickUntilStopped | src/components/ui/LoadingScreen.tsx:11-20 | letting the interval run until it clears itself takes 101 ticks and ends at 100% with the removal scheduled and the overlay still shown |

## Left out

- Floating point: `handleScroll` computes `floor(progress * 4 + 0.5)` in IEEE doubles. The model uses the exact rational value, computed as an integer floor division. For whole-pixel offsets the two agree, ties included: at a tie `(s - H) / 4V` is exactly `(2i - 1) / 8`, and the `* 4` and `+ 0.5` that follow are exact in doubles.
- Fractional `scrollY`: browsers can report a fractional scroll offset under zoom. Offsets are whole pixels here.
- The GSAP scroll animation (1.2 s, `power2.inOut`) and the cancelling of an animation already in flight: the model gives the target offset only.
- Event-listener registration and removal, React re-rendering and hook state, and the 20 ms / 500 ms timer periods. The timers are events without time.
- The `AnimatePresence` exit animation of the loading overlay, and clearing the interval on unmount.
- React's development-mode double call of the `setProgress` updater. It would schedule the removal timeout twice, which ends in the same state.
- SkillCard.ToLower: lowercases ASCII letters only, as the next line explains.
- SkillCard.ToLowerPointwise: lowercases ASCII letters only. JavaScript's `toLowerCase` also maps non-ASCII letters, some to more than one character. Every tag on the page is ASCII.
- SkillCard.Rotation: gives the angle the framer-motion spring settles at, not the spring's motion towards it.
- SkillCard.MouseMove: requires a non-empty card box when the card is not mobile. A mouse-move event only reaches an element with a non-empty box, and the card's markup gives it a minimum height of 300px. The infinities a zero width would produce are not modelled.
- SkillCard.MouseMove: computes in exact reals, while the component divides in IEEE doubles. For a pointer inside the card the doubles also give fractions in `[-0.5, 0.5]`, because division and subtracting 0.5 are monotone when correctly rounded and the end points are exact. The identity `(x + 0.5) * width == clientX - left` holds only up to rounding there.
- The icon fetch from the CDN and hiding a broken icon image.
- The page's GSAP pinning, snapping and parallax configuration, the mobile vertical layout, the 3D hero scene, the custom cursor and the project cards. These are rendering and animation-library configuration. Their only constants the model needs are the five panels and the 400% pin length.
- The mobile navigation overlay: the nav buttons are hidden below the 768px breakpoint, and this code has no mobile menu.

## Notes

- Below the 768px breakpoint the nav buttons are hidden (`hidden md:flex`, Navbar.tsx line 96). The click handler is the same at every width, so a click always targets `H + i*V`, even in the narrow-screen layout where the panels are stacked vertically.
- With a zero `innerHeight` the middle band is the single offset `s = H - 50`. There the quotient `-50 / 0` is minus infinity, and the clamp turns it into index 0, so `about` is highlighted. `PanelIndex` gives index 0 whenever the viewport height is 0.

=== FILE: loading_screen.dfy ===
/** The loading overlay: a percentage counter advanced by a 20 ms interval,
    which, once it has reached 100, stops the interval and schedules the
    overlay's removal 500 ms later.

    Time is not modelled: the interval firing and the removal timeout firing
    are events, and the state records which timers are still pending. */
module LoadingScreen {

  datatype LoadState = LoadState(
    progress: int,      // the percentage shown
    loading: bool,      // the overlay is mounted
    ticking: bool,      // the interval has not been cleared
    hidePending: bool   // the removal timeout is scheduled and has not fired
  )

  datatype Event = Tick | HideTimeout

  const Full := 100

  /** The component's first render: 0%, overlay shown, interval started. */
  const Initial := LoadState(0, true, true, false)

  /** The updater passed to `setProgress`: the next value, and whether it
      stops the counter (clears the interval and schedules the removal). */
  function Updater(prev: int): (r: (int, bool))
    ensures r.1 <==> prev >= Full
    ensures r.0 <= Full
    ensures prev <= Full ==> prev <= r.0
    ensures prev < Full ==> r.0 == prev + 1
    ensures prev >= Full ==> r.0 == Full
  {
    if prev >= Full then (Full, true) else (prev + 1, false)
  }

  /** One event. A live tick applies the updater: the counter takes its next
      value and, when the updater stops it, the interval is cleared and the
      removal scheduled. The scheduled removal timeout hides the overlay. A
      tick after the interval was cleared, or a timeout that was never
      scheduled, does not happen, so it changes nothing. */
  function Step(st: LoadState, e: Event): (r: LoadState)
    ensures r.loading ==> st.loading
    ensures r.progress != st.progress ==> e == Tick && st.ticking
    ensures st.loading && !r.loading ==> e == HideTimeout && st.hidePending
    ensures e == Tick && st.ticking ==>
      && r.progress == Updater(st.progress).0
      && (r.ticking <==> !Updater(st.progress).1)
      && (r.hidePending <==> st.hidePending || Updater(st.progress).1)
      && r.loading == st.loading
    ensures e == HideTimeout && st.hidePending ==>
      !r.loading && !r.hidePending && r.progress == st.progress && r.ticking == st.ticking
    ensures (e == Tick && !st.ticking) || (e == HideTimeout && !st.hidePending) ==> r == st
  {
    match e
    case Tick =>
      if !st.ticking then st
      else
        var (next, stop) := Updater(st.progress);
        if stop then st.(progress := next, ticking := false, hidePending := true)
        else st.(progress := next)
    case HideTimeout =>
      if st.hidePending then st.(loading := false, hidePending := false) else st
  }

  /** What the page shows: the overlay with its bar width and label, only
      while loading. */
  function Overlay(st: LoadState): (r: OverlayView)
    ensures r.Shown? <==> st.loading
    ensures r.Shown? ==> r.percent == st.progress
  {
    if st.loading then Shown(st.progress) else Hidden
  }

  datatype OverlayView = Hidden | Shown(percent: int)

  /** The invariant of every reachable state: the counter stays in 0..100,
      the removal is scheduled only after the interval stopped at 100, and
      the overlay goes away only after that. */
  predicate Valid(st: LoadState)
  {
    && 0 <= st.progress <= Full
    && (!st.ticking ==> st.progress == Full)
    && (st.hidePending ==> !st.ticking && st.loading)
    && (!st.loading ==> !st.ticking && !st.hidePending)
  }

  lemma InitialValid()
    ensures Valid(Initial)
    ensures Initial.progress == 0 && Initial.loading
  {
  }

  lemma StepPreservesValid(st: LoadState, e: Event)
    requires Valid(st)
    ensures Valid(Step(st, e))
    ensures st.progress <= Step(st, e).progress
  {
  }

  /** The state after the events, in order; the overlay is never restored. */
  function Run(st: LoadState, events: seq<Event>): (r: LoadState)
    ensures r.loading ==> st.loading
    decreases |events|
  {
    if |events| == 0 then st else Run(Step(st, events[0]), events[1..])
  }

  /** Whatever interleaving of timer events happens, the counter never
      passes 100, never goes backwards, and the overlay is removed only once
      the counter shows 100. */
  lemma {:induction false} RunPreservesValid(st: LoadState, events: seq<Event>)
    requires Valid(st)
    ensures Valid(Run(st, events))
    ensures st.progress <= Run(st, events).progress <= Full
    ensures !Run(st, events).loading ==> Run(st, events).progress == Full
    decreases |events|
  {
    if |events| > 0 {
      StepPreservesValid(st, events[0]);
      RunPreservesValid(Step(st, events[0]), events[1..]);
    }
  }

  /** `k` interval ticks and nothing else. */
  function Ticks(st: LoadState, k: nat): (r: LoadState)
    ensures r.loading == st.loading
  {
    if k == 0 then st else Step(Ticks(st, k - 1), Tick)
  }

  /** After `k` ticks from the first render the counter shows `min(k, 100)`;
      the interval runs through 100 ticks and the 101st, finding 100, stops
      it and schedules the removal. The overlay is still shown throughout. */
  lemma {:induction false} TicksFromInitial(k: nat)
    ensures Ticks(Initial, k).progress == if k < Full then k else Full
    ensures Ticks(Initial, k).ticking <==> k <= Full
    ensures Ticks(Initial, k).hidePending <==> k > Full
    ensures Ticks(Initial, k).loading
  {
    if k > 0 {
      TicksFromInitial(k - 1);
    }
  }

  /** The interval's 101st tick schedules the removal, and when that timeout
      fires the overlay is gone, with the counter left at 100. */
  lemma OverlayGoesAway()
    ensures Overlay(Ticks(Initial, Full + 1)) == Shown(Full)
    ensures Overlay(Step(Ticks(Initial, Full + 1), HideTimeout)) == Hidden
    ensures Step(Ticks(Initial, Full + 1), HideTimeout).progress == Full
  {
    TicksFromInitial(Full + 1);
  }

  /** 100 is a fixed point of the counter: once reached, no event moves it. */
  lemma {:induction false} FullIsFixed(st: LoadState, events: seq<Event>)
    requires st.progress == Full
    ensures Run(st, events).progress == Full
    decreases |events|
  {
    if |events| > 0 {
      FullIsFixed(Step(st, events[0]), events[1..]);
    }
  }

  /** Drives the interval until it clears itself, as the browser would, and
      reports how many ticks that took. */
  method TickUntilStopped() returns (ticks: nat, st: LoadState)
    ensures ticks == Full + 1
    ensures st == Ticks(Initial, ticks)
    ensures st.progress == Full && !st.ticking && st.hidePending && st.loading
  {
    ticks := 0;
    st := Initial;
    while st.ticking
      invariant ticks <= Full + 1
      invariant st == Ticks(Initial, ticks)
      invariant st.ticking <==> ticks <= Full
      decreases Full + 1 - ticks
    {
      TicksFromInitial(ticks + 1);
      st := Step(st, Tick);
      ticks := ticks + 1;
    }
    TicksFromInitial(ticks);
  }
}

=== FILE: navbar.dfy ===
/** The navigation bar of the portfolio page: which nav entry is highlighted
    for a vertical scroll offset, and which scroll offset a click on an entry
    animates to.

    Geometry is in whole CSS pixels: `H` is the hero section's `offsetHeight`,
    `V` the window's `innerHeight`, `s` the window's `scrollY`. The horizontal
    panel strip is pinned for `ScrollDistance(V)` pixels after the hero. */
module Navbar {
  import opened Wrappers
  import opened Seqs

  datatype NavItem = NavItem(name: string, id: string)

  /** The entries of the bar, in display order. */
  const NavItems: seq<NavItem> := [
    NavItem("Home", "home"),
    NavItem("About", "about"),
    NavItem("Skills", "skills"),
    NavItem("Projects", "projects"),
    NavItem("Timeline", "timeline"),
    NavItem("Connect", "connect")
  ]

  /** The ids of the entries, which are also the ids of the page's sections;
      `NavItemIds` shows they agree with `NavItems`. */
  const NavIds: seq<string> := ["home", "about", "skills", "projects", "timeline", "connect"]

  /** The horizontally swept panels; "home" is the hero above them. */
  const PanelIds: seq<string> := ["about", "skills", "projects", "timeline", "connect"]

  /** Distance from the top of the page under which the bar is "scrolled". */
  const ScrolledThreshold := 50

  /** Slack before each band boundary at which the highlight already switches. */
  const Slack := 50

  /** The pinned region is 400% of the viewport height. */
  function ScrollDistance(V: nat): (d: nat)
  {
    4 * V
  }

  /** Number of transitions between the panels. */
  const Transitions := |PanelIds| - 1

  /** The state the bar renders from. */
  datatype NavState = NavState(activeSection: string, isScrolled: bool)

  const InitialState := NavState("home", false)

  /** Rank of an id in the order of the bar (home first, connect last). */
  function Rank(id: string): (r: int)
    ensures -1 <= r < |NavIds|
    ensures 0 <= r <==> id in NavIds
  {
    IndexOf(NavIds, id)
  }

  /** Floor division characterised by its bounds, for a positive divisor. */
  lemma DivBounds(a: int, b: int)
    requires b > 0
    ensures b * (a / b) <= a < b * (a / b) + b
  {
  }

  lemma DivMonotone(a1: int, a2: int, b: int)
    requires b > 0 && a1 <= a2
    ensures a1 / b <= a2 / b
  {
    DivBounds(a1, b);
    DivBounds(a2, b);
    if a1 / b > a2 / b {
      MulLeftMonotone(b, a2 / b + 1, a1 / b);
      assert false;
    }
  }

  /** Multiplying by a positive factor keeps the order, and a strict order
      between products survives cancelling that factor. */
  lemma MulLeftMonotone(b: int, x: int, y: int)
    requires b > 0 && x <= y
    ensures b * x <= b * y
  {
  }

  lemma MulRightCancel(x: int, y: int, V: int)
    requires V > 0 && x * V < y * V
    ensures x < y
  {
    if x >= y {
      MulLeftMonotone(V, y, x);
    }
  }

  /** The unclamped index `floor(progress * Transitions + 0.5)` with
      `progress = (s - H) / ScrollDistance(V)`, computed exactly: multiplying
      numerator and denominator by `2 * ScrollDistance(V)` keeps it an integer
      floor division. Requires a non-empty viewport.
      The result is the panel whose target `H + q * V` is nearest to `s`, and
      an offset exactly halfway between two targets goes to the later one. */
  function RawIndex(s: int, H: int, V: nat): (q: int)
    requires V > 0
    ensures (2 * q - 1) * V <= 2 * (s - H) < (2 * q + 1) * V
  {
    var q := (2 * Transitions * (s - H) + ScrollDistance(V)) / (2 * ScrollDistance(V));
    DivBounds(8 * (s - H) + 4 * V, 8 * V);
    assert 8 * V * q <= 8 * (s - H) + 4 * V < 8 * V * q + 8 * V;
    assert (2 * q - 1) * V * 4 == 8 * V * q - 4 * V;
    assert (2 * q + 1) * V * 4 == 8 * V * q + 4 * V;
    q
  }

  lemma RawIndexMonotone(s1: int, s2: int, H: int, V: nat)
    requires V > 0 && s1 <= s2
    ensures RawIndex(s1, H, V) <= RawIndex(s2, H, V)
  {
    DivMonotone(8 * (s1 - H) + 4 * V, 8 * (s2 - H) + 4 * V, 8 * V);
  }

  function Clamp(x: int, lo: int, hi: int): (r: int)
    requires lo <= hi
    ensures lo <= r <= hi
    ensures lo <= x <= hi ==> r == x
  {
    if x < lo then lo else if x > hi then hi else x
  }

  /** Index into `PanelIds` for an offset in the middle band. With an empty
      viewport the middle band is the single offset `H - Slack`, whose
      progress is `-Slack / 0`, minus infinity in JavaScript, which the clamp
      sends to 0.
      Otherwise the index is the panel whose target `H + i * V` is nearest,
      ties going to the later panel, clamped to the five panels. */
  function PanelIndex(s: int, H: int, V: nat): (i: nat)
    ensures i < |PanelIds|
    ensures V == 0 ==> i == 0
    ensures V > 0 && 0 < i ==> (2 * i - 1) * V <= 2 * (s - H)
    ensures V > 0 && i < |PanelIds| - 1 ==> 2 * (s - H) < (2 * i + 1) * V
  {
    if V == 0 then 0 else Clamp(RawIndex(s, H, V), 0, |PanelIds| - 1)
  }

  /** Which band an offset falls in, as `handleScroll` tests them. */
  predicate InHomeBand(s: int, H: int)
  {
    s < H - Slack
  }

  predicate InConnectBand(s: int, H: int, V: nat)
  {
    s > H + ScrollDistance(V) - Slack
  }

  /** The id `handleScroll` highlights for scroll offset `s`, hero height `H`
      and viewport height `V`. */
  function ActiveSection(s: int, H: int, V: nat): (r: string)
    ensures r in NavIds
    ensures r == "home" <==> InHomeBand(s, H)
    ensures InConnectBand(s, H, V) ==> r == "connect"
    ensures !InHomeBand(s, H) && !InConnectBand(s, H, V) ==> r == PanelIds[PanelIndex(s, H, V)]
  {
    if InHomeBand(s, H) then "home"
    else if InConnectBand(s, H, V) then "connect"
    else PanelIds[PanelIndex(s, H, V)]
  }

  /** `handleScroll`: the scrolled flag is always refreshed; the highlighted
      section only when the hero element exists (`homeHeight` is its
      `offsetHeight`). The same handler runs on resize and on mount. */
  function HandleScroll(st: NavState, s: int, homeHeight: Option<nat>, V: nat): (r: NavState)
    ensures r.isScrolled <==> s > ScrolledThreshold
    ensures homeHeight.None? ==> r.activeSection == st.activeSection
    ensures homeHeight.Some? ==> r.activeSection in NavIds
    ensures homeHeight.Some? ==> (r.activeSection == "home" <==> InHomeBand(s, homeHeight.value))
    ensures homeHeight.Some? && InConnectBand(s, homeHeight.value, V) ==> r.activeSection == "connect"
    ensures homeHeight.Some? ==> r.activeSection == ActiveSection(s, homeHeight.value, V)
  {
    var scrolled := s > ScrolledThreshold;
    match homeHeight
    case None => st.(isScrolled := scrolled)
    case Some(H) => NavState(ActiveSection(s, H, V), scrolled)
  }

  /** On the first render at the top of the page the bar is not scrolled and,
      once the hero is taller than the slack, `home` is highlighted. */
  lemma FirstScrollAtTop(H: nat, V: nat)
    requires H > Slack
    ensures HandleScroll(InitialState, 0, Some(H), V) == InitialState
  {
  }

  /** `scrollToSection`: the offset the page animates to for a click on `id`,
      or `None` when the click does nothing (the hero element is missing, or
      the id names no panel). "home" scrolls to the top even without the hero. */
  function ScrollTarget(id: string, homeHeight: Option<nat>, V: nat): (r: Option<int>)
    ensures id == "home" ==> r == Some(0)
    ensures id != "home" && (homeHeight.None? || id !in PanelIds) ==> r == None
    ensures id != "home" && homeHeight.Some? && id in PanelIds ==>
      r.Some? && exists i :: 0 <= i < |PanelIds| && PanelIds[i] == id && r.value == homeHeight.value + i * V
  {
    if id == "home" then Some(0)
    else match homeHeight
      case None => None
      case Some(H) =>
        var panelIndex := IndexOf(PanelIds, id);
        if panelIndex != -1 then
          Some(H + panelIndex * (ScrollDistance(V) / Transitions))
        else None
  }

  /** The id of panel `i` is found at position `i`. */
  lemma PanelIdIndex(i: nat)
    requires i < |PanelIds|
    ensures IndexOf(PanelIds, PanelIds[i]) == i
  {
  }

  lemma PanelSpacing(V: nat)
    ensures ScrollDistance(V) / Transitions == V
  {
  }

  lemma PanelTarget(H: nat, V: nat, i: nat)
    requires i < |PanelIds|
    ensures ScrollTarget(PanelIds[i], Some(H), V) == Some(H + i * V)
  {
    PanelIdIndex(i);
    PanelSpacing(V);
  }

  /** Panel targets start at the end of the hero and are spaced exactly one
      viewport height apart: five panels, four transitions of 100vh each. */
  lemma TargetSpacing(H: nat, V: nat, i: nat)
    requires i + 1 < |PanelIds|
    ensures ScrollTarget(PanelIds[0], Some(H), V) == Some(H)
    ensures ScrollTarget(PanelIds[i + 1], Some(H), V).Some?
    ensures ScrollTarget(PanelIds[i], Some(H), V).Some?
    ensures ScrollTarget(PanelIds[i + 1], Some(H), V).value
         == ScrollTarget(PanelIds[i], Some(H), V).value + V
  {
    PanelTarget(H, V, 0);
    PanelTarget(H, V, i);
    PanelTarget(H, V, i + 1);
    assert (i + 1) * V == i * V + V;
  }

  /** Clicking an entry and letting the animation settle highlights the
      clicked entry, for every entry of the bar, provided the hero is taller
      than the slack and the viewport at least as tall as the slack. */
  predicate RoundTrips(id: string, H: nat, V: nat)
  {
    var t := ScrollTarget(id, Some(H), V);
    t.Some? && ActiveSection(t.value, H, V) == id
  }

  /** At the target offset `H + i * V` of panel `i` the clamped index is
      `i`: the target is its own nearest target. */
  lemma PanelIndexAtTarget(H: int, V: nat, i: nat)
    requires V > 0 && i < |PanelIds|
    ensures PanelIndex(H + i * V, H, V) == i
  {
    var k := PanelIndex(H + i * V, H, V);
    if k < i {
      MulRightCancel(2 * i, 2 * k + 1, V);
    }
    if k > i {
      MulRightCancel(2 * k - 1, 2 * i, V);
    }
  }

  lemma RoundTrip(id: string, H: nat, V: nat)
    requires id in NavIds
    requires H > Slack && V >= Slack
    ensures RoundTrips(id, H, V)
  {
    if id != "home" {
      var i := IndexOf(PanelIds, id);
      PanelRoundTrip(H, V, i);
    }
  }

  lemma PanelRoundTrip(H: nat, V: nat, i: nat)
    requires i < |PanelIds|
    requires H > Slack && V >= Slack
    ensures RoundTrips(PanelIds[i], H, V)
  {
    PanelTarget(H, V, i);
    ActiveSectionAtTarget(H, V, i);
  }

  lemma ActiveSectionAtTarget(H: nat, V: nat, i: nat)
    requires i < |PanelIds|
    requires H > Slack && V >= Slack
    ensures ActiveSection(H + i * V, H, V) == PanelIds[i]
  {
    var t := H + i * V;
    assert !InHomeBand(t, H);
    if i < |PanelIds| - 1 {
      MulLeftMonotone(V, i, 3);
      assert !InConnectBand(t, H, V);
      PanelIndexAtTarget(H, V, i);
    } else {
      assert InConnectBand(t, H, V);
    }
  }

  /** Both conditions of `RoundTrip` are needed: with a short hero the top of
      the page is not in the home band, and with a short viewport the timeline
      target already falls in the connect band. */
  lemma RoundTripNeedsTallHero(H: nat, V: nat)
    requires H <= Slack
    ensures !RoundTrips("home", H, V)
  {
  }

  lemma RoundTripNeedsTallViewport(H: nat, V: nat)
    requires V < Slack
    ensures !RoundTrips("timeline", H, V)
  {
    PanelTarget(H, V, 3);
    assert InConnectBand(H + 3 * V, H, V);
  }

  /** Panel `i` is entry `i + 1` of the bar, after "home". */
  lemma PanelRank(i: nat)
    requires i < |PanelIds|
    ensures Rank(PanelIds[i]) == i + 1
  {
    assert PanelIds[i] == NavIds[i + 1];
    assert NavIds[..i + 1] == ["home"] + PanelIds[..i];
  }

  /** The highlight never moves backwards as the page scrolls down: for
      `s1 <= s2` the entry for `s1` comes no later in the bar than the entry
      for `s2`. */
  lemma ActiveSectionMonotone(s1: int, s2: int, H: int, V: nat)
    requires s1 <= s2
    ensures Rank(ActiveSection(s1, H, V)) <= Rank(ActiveSection(s2, H, V))
  {
    var a1, a2 := ActiveSection(s1, H, V), ActiveSection(s2, H, V);
    if InHomeBand(s1, H) {
      assert Rank(a1) == 0;
    } else if InConnectBand(s2, H, V) {
      assert Rank(a2) == 5;
    } else {
      var i1, i2 := PanelIndex(s1, H, V), PanelIndex(s2, H, V);
      if V > 0 {
        RawIndexMonotone(s1, s2, H, V);
      }
      assert i1 <= i2;
      PanelRank(i1);
      PanelRank(i2);
    }
  }

  /** The half-up tie rule: an offset exactly halfway between the targets of
      panels `i - 1` and `i` highlights panel `i`. */
  lemma HalfwayGoesToLaterPanel(s: int, H: int, V: nat, i: nat)
    requires 0 < i < |PanelIds| && V > 0
    requires 2 * (s - H) == (2 * i - 1) * V
    requires !InConnectBand(s, H, V)
    ensures ActiveSection(s, H, V) == PanelIds[i]
  {
    var k := PanelIndex(s, H, V);
    if k < i {
      MulRightCancel(2 * i - 1, 2 * k + 1, V);
    }
    if k > i {
      MulRightCancel(2 * k - 1, 2 * i - 1, V);
    }
  }

  lemma NavItemIds()
    ensures forall i :: 0 <= i < |NavItems| ==> NavItems[i].id == NavIds[i]
    ensures forall i, j :: 0 <= i < j < |NavIds| ==> NavIds[i] != NavIds[j]
  {
  }

  /** Which entries the bar draws as active: exactly one, the active section. */
  function Highlights(active: string): (r: seq<bool>)
    requires active in NavIds
    ensures |r| == |NavItems|
    ensures forall i :: 0 <= i < |r| ==> (r[i] <==> NavItems[i].id == active)
    ensures forall i, j :: 0 <= i < |r| && 0 <= j < |r| && r[i] && r[j] ==> i == j
    ensures exists i :: 0 <= i < |r| && r[i]
  {
    NavItemIds();
    var r := seq(|NavItems|, i requires 0 <= i < |NavItems| => NavItems[i].id == active);
    assert r[IndexOf(NavIds, active)];
    r
  }
}

=== FILE: seqs.dfy ===
/** Sequence helpers shared by the models: the first-occurrence search that
    JavaScript's `Array.prototype.indexOf` and `String.prototype.replace` with a
    string pattern both rely on, and occurrence counting. */
module Seqs {

  /** Position of the first occurrence of `x` in `s`, or -1 when there is none. */
  function IndexOf<T(==)>(s: seq<T>, x: T): (r: int)
    ensures -1 <= r < |s|
    ensures r == -1 <==> x !in s
    ensures 0 <= r ==> s[r] == x && x !in s[..r]
  {
    if |s| == 0 then -1
    else if s[0] == x then 0
    else
      var k := IndexOf(s[1..], x);
      assert s[1..][..if k < 0 then 0 else k] == s[1..if k < 0 then 1 else k + 1];
      if k < 0 then -1 else k + 1
  }

  /** Number of occurrences of `x` in `s`. */
  function Count<T(==)>(s: seq<T>, x: T): (n: nat)
    ensures n <= |s|
  {
    if |s| == 0 then 0
    else (if s[0] == x then 1 else 0) + Count(s[1..], x)
  }

  lemma {:induction false} CountZero<T>(s: seq<T>, x: T)
    ensures Count(s, x) == 0 <==> x !in s
  {
    if |s| > 0 {
      CountZero(s[1..], x);
      assert x in s <==> s[0] == x || x in s[1..];
    }
  }

  lemma {:induction false} CountAppend<T>(a: seq<T>, b: seq<T>, x: T)
    ensures Count(a + b, x) == Count(a, x) + Count(b, x)
  {
    if |a| == 0 {
      assert a + b == b;
    } else {
      assert (a + b)[1..] == a[1..] + b;
      CountAppend(a[1..], b, x);
    }
  }
}

=== FILE: skill_card.dfy ===
/** A skill card: the icon slug built from each tag for the icon CDN URL, and
    the tilt the card takes from the pointer position.

    The slug is `tag.toLowerCase().replace('.', 'dot').replace(' ', '')`. A
    string pattern makes JavaScript's `replace` act on the first occurrence
    only, so later dots and spaces survive. */
module SkillCard {
  import opened Seqs

  predicate IsUpperAscii(c: char)
  {
    'A' <= c <= 'Z'
  }

  /** ASCII case mapping; every other character is its own lower case here. */
  function LowerChar(c: char): (l: char)
    ensures !IsUpperAscii(l)
    ensures !IsUpperAscii(c) ==> l == c
  {
    if IsUpperAscii(c) then (c as int + 32) as char else c
  }

  /** `toLowerCase` restricted to ASCII letters. */
  function ToLower(s: string): (r: string)
    ensures |r| == |s|
  {
    if |s| == 0 then s else [LowerChar(s[0])] + ToLower(s[1..])
  }

  predicate NoUpper(s: string)
  {
    forall i :: 0 <= i < |s| ==> !IsUpperAscii(s[i])
  }

  /** Lowercasing leaves no capital, moves each capital 32 code points up to
      its lower-case letter, and leaves every other character in place. */
  lemma {:induction false} ToLowerPointwise(s: string)
    ensures NoUpper(ToLower(s))
    ensures forall i :: 0 <= i < |s| && IsUpperAscii(s[i]) ==> ToLower(s)[i] as int == s[i] as int + 32
    ensures forall i :: 0 <= i < |s| && !IsUpperAscii(s[i]) ==> ToLower(s)[i] == s[i]
  {
    if |s| > 0 {
      ToLowerPointwise(s[1..]);
      forall i | 0 < i < |s|
        ensures ToLower(s)[i] == ToLower(s[1..])[i - 1] && s[i] == s[1..][i - 1]
      {
      }
    }
  }

  /** `s.replace(c, rep)` for a one-character string pattern, scanning from
      the left. */
  function ReplaceFirst(s: string, c: char, rep: string): (r: string)
    ensures c !in s ==> r == s
    ensures c in s ==> |r| == |s| - 1 + |rep|
  {
    if |s| == 0 then s
    else if s[0] == c then rep + s[1..]
    else [s[0]] + ReplaceFirst(s[1..], c, rep)
  }

  /** The first `c` becomes `rep`; what comes before and after it is kept. */
  lemma {:induction false} ReplaceFirstSplices(s: string, c: char, rep: string)
    requires c in s
    ensures ReplaceFirst(s, c, rep) == s[..IndexOf(s, c)] + rep + s[IndexOf(s, c) + 1..]
  {
    if s[0] != c {
      assert c in s[1..] by {
        var j :| 0 <= j < |s| && s[j] == c;
        assert s[1..][j - 1] == c;
      }
      var t := s[1..];
      var k := IndexOf(t, c);
      assert IndexOf(s, c) == k + 1;
      ReplaceFirstSplices(t, c, rep);
      assert ReplaceFirst(s, c, rep) == [s[0]] + (t[..k] + rep + t[k + 1..]);
      ConsSplice(s, k, rep);
    }
  }

  /** Putting back the first character of a string spliced after it. */
  lemma ConsSplice(s: string, k: nat, rep: string)
    requires k + 1 < |s|
    ensures [s[0]] + (s[1..][..k] + rep + s[1..][k + 1..]) == s[..k + 1] + rep + s[k + 2..]
  {
    assert [s[0]] + s[1..][..k] == s[..k + 1];
    assert s[1..][k + 1..] == s[k + 2..];
  }

  /** The slug appended to the icon CDN URL for a tag. It never holds an
      upper-case ASCII letter, since lowercasing comes first and neither
      replacement inserts one. Its length is the tag's, plus two when the tag
      holds a dot ("." becomes "dot"), minus one when it holds a space. */
  function IconSlug(tag: string): (r: string)
    ensures NoUpper(r)
    ensures |r| == |tag| + (if '.' in tag then 2 else 0) - (if ' ' in tag then 1 else 0)
  {
    StagesLowerCase(tag);
    StagesLength(tag);
    ReplaceFirst(ReplaceFirst(ToLower(tag), '.', "dot"), ' ', "")
  }

  /** Replacing the first `c` removes exactly one `c` and adds those of `rep`. */
  lemma CountReplaceFirst(s: string, c: char, rep: string, x: char)
    ensures Count(ReplaceFirst(s, c, rep), x)
         == if c in s then Count(s, x) - (if x == c then 1 else 0) + Count(rep, x) else Count(s, x)
  {
    if c in s {
      var i := IndexOf(s, c);
      ReplaceFirstSplices(s, c, rep);
      assert s == s[..i] + [c] + s[i + 1..];
      CountAppend(s[..i] + [c], s[i + 1..], x);
      CountAppend(s[..i], [c], x);
      CountAppend(s[..i] + rep, s[i + 1..], x);
      CountAppend(s[..i], rep, x);
    }
  }

  /** Lowercasing keeps every character that is not an upper-case letter
      where it was, so dots and spaces are counted the same before and after. */
  lemma {:induction false} CountToLower(s: string, x: char)
    requires !IsUpperAscii(x) && (x < 'a' || x > 'z')
    ensures Count(ToLower(s), x) == Count(s, x)
  {
    if |s| > 0 {
      CountToLower(s[1..], x);
      assert ToLower(s)[1..] == ToLower(s[1..]);
    }
  }

  lemma NoUpperReplaceFirst(s: string, c: char, rep: string)
    requires NoUpper(s) && NoUpper(rep)
    ensures NoUpper(ReplaceFirst(s, c, rep))
  {
    if c in s {
      var i := IndexOf(s, c);
      var r := ReplaceFirst(s, c, rep);
      ReplaceFirstSplices(s, c, rep);
      forall j | 0 <= j < |r|
        ensures !IsUpperAscii(r[j])
      {
        if j < i {
          assert r[j] == s[j];
        } else if j < i + |rep| {
          assert r[j] == rep[j - i];
        } else {
          assert r[j] == s[j - |rep| + 1];
        }
      }
    }
  }

  lemma StagesLowerCase(tag: string)
    ensures NoUpper(ReplaceFirst(ReplaceFirst(ToLower(tag), '.', "dot"), ' ', ""))
  {
    var lower := ToLower(tag);
    ToLowerPointwise(tag);
    assert NoUpper("dot");
    NoUpperReplaceFirst(lower, '.', "dot");
    NoUpperReplaceFirst(ReplaceFirst(lower, '.', "dot"), ' ', "");
  }

  /** Only the first dot becomes "dot" and only the first space disappears:
      every later dot and space of the tag is still in the slug. */
  lemma SlugKeepsLaterDotsAndSpaces(tag: string)
    ensures Count(IconSlug(tag), '.') == if '.' in tag then Count(tag, '.') - 1 else 0
    ensures Count(IconSlug(tag), ' ') == if ' ' in tag then Count(tag, ' ') - 1 else 0
  {
    SlugKeepsLaterDots(tag);
    SlugKeepsLaterSpaces(tag);
  }

  lemma SlugKeepsLaterDots(tag: string)
    ensures Count(IconSlug(tag), '.') == if '.' in tag then Count(tag, '.') - 1 else 0
  {
    var lower := ToLower(tag);
    var dotted := ReplaceFirst(lower, '.', "dot");
    CountToLower(tag, '.');
    CountZero(tag, '.');
    CountZero(lower, '.');
    assert Count(dotted, '.') == if '.' in lower then Count(lower, '.') - 1 else Count(lower, '.') by {
      CountReplaceFirst(lower, '.', "dot", '.');
    }
    CountReplaceFirst(dotted, ' ', "", '.');
  }

  lemma SlugKeepsLaterSpaces(tag: string)
    ensures Count(IconSlug(tag), ' ') == if ' ' in tag then Count(tag, ' ') - 1 else 0
  {
    var lower := ToLower(tag);
    var dotted := ReplaceFirst(lower, '.', "dot");
    CountToLower(tag, ' ');
    CountZero(tag, ' ');
    CountZero(lower, ' ');
    assert Count(dotted, ' ') == Count(lower, ' ') by {
      CountReplaceFirst(lower, '.', "dot", ' ');
    }
    CountZero(dotted, ' ');
    CountReplaceFirst(dotted, ' ', "", ' ');
  }

  lemma StagesLength(tag: string)
    ensures var slug := ReplaceFirst(ReplaceFirst(ToLower(tag), '.', "dot"), ' ', "");
      |slug| == |tag| + (if '.' in tag then 2 else 0) - (if ' ' in tag then 1 else 0)
  {
    var lower := ToLower(tag);
    var dotted := ReplaceFirst(lower, '.', "dot");
    CountToLower(tag, '.');
    CountToLower(tag, ' ');
    CountZero(tag, '.');
    CountZero(tag, ' ');
    CountZero(lower, '.');
    CountZero(lower, ' ');
    CountReplaceFirst(lower, '.', "dot", ' ');
    CountZero(dotted, ' ');
  }

  /** A tag with neither a dot nor a space only loses its capitals. */
  lemma SlugOfPlainTag(tag: string)
    requires '.' !in tag && ' ' !in tag
    ensures IconSlug(tag) == ToLower(tag)
  {
    CountToLower(tag, '.');
    CountToLower(tag, ' ');
    CountZero(tag, '.');
    CountZero(tag, ' ');
    CountZero(ToLower(tag), '.');
    CountZero(ToLower(tag), ' ');
  }

  /** Replacing in a string split at its first `c`. */
  lemma ReplaceFirstAt(a: string, c: char, rep: string, b: string)
    requires c !in a
    ensures ReplaceFirst(a + [c] + b, c, rep) == a + rep + b
  {
    var s := a + [c] + b;
    assert s[|a|] == c;
    ReplaceFirstSplices(s, c, rep);
    assert s[..|a|] == a;
    assert s[|a| + 1..] == b;
  }

  /** A tag whose lower-cased form has its first dot after `a`, and no
      space, gets "dot" in place of that dot and nothing else changes. */
  lemma SlugOfDottedTag(tag: string, a: string, b: string)
    requires ToLower(tag) == a + ['.'] + b
    requires '.' !in a && ' ' !in a && ' ' !in b
    ensures IconSlug(tag) == a + "dot" + b
  {
    var dotted := ReplaceFirst(ToLower(tag), '.', "dot");
    assert dotted == a + "dot" + b by {
      ReplaceFirstAt(a, '.', "dot", b);
    }
    assert ReplaceFirst(dotted, ' ', "") == dotted by {
      assert ' ' !in a + "dot" + b;
    }
  }

  /** A tag whose lower-cased form has no dot and its first space after `a`
      loses that space only. */
  lemma SlugOfSpacedTag(tag: string, a: string, b: string)
    requires ToLower(tag) == a + [' '] + b
    requires '.' !in a && '.' !in b && ' ' !in a
    ensures IconSlug(tag) == a + b
  {
    var dotted := ReplaceFirst(ToLower(tag), '.', "dot");
    assert dotted == a + [' '] + b by {
      assert '.' !in a + [' '] + b;
    }
    assert ReplaceFirst(dotted, ' ', "") == a + b by {
      RemoveFirstAt(a, ' ', b);
    }
  }

  /** Replacing the first `c` by nothing drops it. */
  lemma RemoveFirstAt(a: string, c: char, b: string)
    requires c !in a
    ensures ReplaceFirst(a + [c] + b, c, "") == a + b
  {
    ReplaceFirstAt(a, c, "", b);
    assert a + "" + b == a + b;
  }

  /** Tags of the page, a plain one and a dotted one, and the first-only rule
      for a second dot. Each stage of the slug is a lemma of its own. */
  lemma SlugOfKaliLinux()
    ensures IconSlug("KaliLinux") == "kalilinux"
  {
    LowerKaliLinux();
    NoDotOfKaliLinux();
    NoSpaceOfKaliLinux();
    SlugByStages("KaliLinux", "kalilinux", "kalilinux", "kalilinux");
  }

  /** The slug assembled from its three stages. */
  lemma SlugByStages(tag: string, lower: string, dotted: string, slug: string)
    requires ToLower(tag) == lower
    requires ReplaceFirst(lower, '.', "dot") == dotted
    requires ReplaceFirst(dotted, ' ', "") == slug
    ensures IconSlug(tag) == slug
  {
  }

  lemma LowerKaliLinux()
    ensures ToLower("KaliLinux") == "kalilinux"
  {
    ToLowerPointwise("KaliLinux");
    assert forall i :: 0 <= i < 9 ==> ToLower("KaliLinux")[i] == "kalilinux"[i];
  }

  lemma SlugOfNextJs()
    ensures IconSlug("Next.js") == "nextdotjs"
  {
    LowerNextJs();
    DotOfNextJs();
    NoSpaceOfNextJs();
    SlugByStages("Next.js", "next.js", "nextdotjs", "nextdotjs");
  }

  lemma LowerNextJs()
    ensures ToLower("Next.js") == "next.js"
  {
  }

  lemma DotOfNextJs()
    ensures ReplaceFirst("next.js", '.', "dot") == "nextdotjs"
  {
    ReplaceFirstAt("next", '.', "dot", "js");
    assert "next" + ['.'] + "js" == "next.js";
    assert "next" + "dot" + "js" == "nextdotjs";
  }

  lemma NothingToReplace(s: string, c: char, rep: string)
    requires c !in s
    ensures ReplaceFirst(s, c, rep) == s
  {
  }

  lemma NoDotOfKaliLinux()
    ensures ReplaceFirst("kalilinux", '.', "dot") == "kalilinux"
  {
    NothingToReplace("kalilinux", '.', "dot");
  }

  lemma NoSpaceOfKaliLinux()
    ensures ReplaceFirst("kalilinux", ' ', "") == "kalilinux"
  {
    NothingToReplace("kalilinux", ' ', "");
  }

  lemma NoSpaceOfNextJs()
    ensures ReplaceFirst("nextdotjs", ' ', "") == "nextdotjs"
  {
    NothingToReplace("nextdotjs", ' ', "");
  }

  lemma NoSpaceOfTwoDots()
    ensures ReplaceFirst("adotb.c", ' ', "") == "adotb.c"
  {
    NothingToReplace("adotb.c", ' ', "");
  }

  lemma SlugOfTwoDots()
    ensures IconSlug("a.b.c") == "adotb.c"
  {
    LowerTwoDots();
    DotOfTwoDots();
    NoSpaceOfTwoDots();
    SlugByStages("a.b.c", "a.b.c", "adotb.c", "adotb.c");
  }

  lemma LowerTwoDots()
    ensures ToLower("a.b.c") == "a.b.c"
  {
  }

  lemma DotOfTwoDots()
    ensures ReplaceFirst("a.b.c", '.', "dot") == "adotb.c"
  {
    ReplaceFirstAt("a", '.', "dot", "b.c");
    assert "a" + ['.'] + "b.c" == "a.b.c";
    assert "a" + "dot" + "b.c" == "adotb.c";
  }

  /** Tilt state of one card: whether it was mounted on a narrow screen, and
      the pointer position as fractions of the card from its centre. */
  datatype CardState = CardState(isMobile: bool, x: real, y: real)

  const InitialCard := CardState(false, 0.0, 0.0)

  /** Screens narrower than this count as mobile. */
  const MobileBreakpoint := 768

  datatype Rect = Rect(left: real, top: real, width: real, height: real)

  /** The mount effect: a narrow window marks the card as mobile. */
  function Mount(st: CardState, innerWidth: int): (r: CardState)
    ensures r.x == st.x && r.y == st.y
    ensures r.isMobile <==> st.isMobile || innerWidth < MobileBreakpoint
  {
    if innerWidth < MobileBreakpoint then st.(isMobile := true) else st
  }

  predicate Inside(clientX: real, clientY: real, rect: Rect)
  {
    rect.left <= clientX <= rect.left + rect.width && rect.top <= clientY <= rect.top + rect.height
  }

  /** `handleMouseMove`: ignored on mobile; otherwise the pointer offset in
      the card, as a fraction of its size, shifted so the centre is 0. A
      mousemove event only reaches a card whose box is not empty. */
  function MouseMove(st: CardState, clientX: real, clientY: real, rect: Rect): (r: CardState)
    requires !st.isMobile ==> rect.width > 0.0 && rect.height > 0.0
    ensures st.isMobile ==> r == st
    ensures r.isMobile == st.isMobile
    ensures !st.isMobile ==>
      (r.x + 0.5) * rect.width == clientX - rect.left && (r.y + 0.5) * rect.height == clientY - rect.top
    ensures !st.isMobile && Inside(clientX, clientY, rect) ==>
      -0.5 <= r.x <= 0.5 && -0.5 <= r.y <= 0.5
  {
    if st.isMobile then st
    else
      var mouseX := clientX - rect.left;
      var mouseY := clientY - rect.top;
      var r := st.(x := mouseX / rect.width - 0.5, y := mouseY / rect.height - 0.5);
      FractionInUnit(mouseX, rect.width);
      FractionInUnit(mouseY, rect.height);
      r
  }

  lemma FractionInUnit(a: real, w: real)
    requires w > 0.0
    ensures (a / w - 0.5 + 0.5) * w == a
    ensures 0.0 <= a <= w ==> 0.0 <= a / w <= 1.0
  {
  }

  /** `handleMouseLeave`: the card returns to rest. */
  function MouseLeave(st: CardState): (r: CardState)
    ensures r.x == 0.0 && r.y == 0.0
    ensures r.isMobile == st.isMobile
  {
    st.(x := 0.0, y := 0.0)
  }

  /** Linear map of [-0.5, 0.5] onto [-17.5, 17.5] degrees, clamped outside. */
  function Degrees(f: real): (d: real)
    ensures -17.5 <= d <= 17.5
    ensures -0.5 <= f <= 0.5 ==> d == 35.0 * f
  {
    if f < -0.5 then -17.5 else if f > 0.5 then 17.5 else 35.0 * f
  }

  /** The rotation the card settles at: pointer below the centre tips the top
      away (rotateX falls), pointer right of the centre turns it right
      (rotateY rises); a mobile card stays flat. */
  function Rotation(st: CardState): (r: (real, real))
    ensures st.isMobile ==> r == (0.0, 0.0)
    ensures -17.5 <= r.0 <= 17.5 && -17.5 <= r.1 <= 17.5
    ensures st.x == 0.0 && st.y == 0.0 ==> r == (0.0, 0.0)
    ensures !st.isMobile && -0.5 <= st.y <= 0.5 ==> r.0 == -35.0 * st.y
    ensures !st.isMobile && -0.5 <= st.x <= 0.5 ==> r.1 == 35.0 * st.x
  {
    if st.isMobile then (0.0, 0.0) else (-Degrees(st.y), Degrees(st.x))
  }

  /** A card mounts flat and at rest, and becomes mobile exactly on a window
      narrower than the breakpoint. */
  lemma MountFromInitial(innerWidth: int)
    ensures Mount(InitialCard, innerWidth).isMobile <==> innerWidth < MobileBreakpoint
    ensures Rotation(Mount(InitialCard, innerWidth)) == (0.0, 0.0)
  {
  }

  /** Whatever the card did before, leaving it brings it back to rest. */
  lemma LeaveRestsCard(st: CardState, clientX: real, clientY: real, rect: Rect)
    requires !st.isMobile ==> rect.width > 0.0 && rect.height > 0.0
    ensures Rotation(MouseLeave(MouseMove(st, clientX, clientY, rect))) == (0.0, 0.0)
    ensures MouseLeave(MouseMove(st, clientX, clientY, rect)) == MouseLeave(st)
  {
  }
}

=== FILE: wrappers.dfy ===
/** The optional value used wherever the program may find nothing: a missing
    DOM element, an id with no scroll target. */
module Wrappers {

  datatype Option<+T> = None | Some(value: T)
}
